=== FILE: README.md ===
# Adaptive geohash nearby search, modelled in Dafny

`adaptive_geohash_sql.py` answers "the rows nearest to a point" on a SQL
table that has no spatial index, only a precomputed 64-bit geohash column.
It works in four steps:

- It turns the geohash key of the search centre into a disjunction of
  integer ranges over that column. This is `get_geohash_where_clause`.
- It lowers the geohash precision, which widens the search area, until a
  count query reports enough candidate rows. This is the `while` loop of
  `adaptive_geohash_nearby_search`.
- It fetches the candidates.
- It sorts them by distance to the centre and returns the requested
  slice. It returns `None` (fall back to another search method) when the
  loop gives up.

This project models that decision logic and proves properties of it. The
geohash library, the database and the distance formula become function
parameters. So every property holds for every geohash expansion, every
count oracle, every fetched row set and every distance key.

The modules, leaves first:

| module | file | models |
|---|---|---|
| `Common` | common.dfy | `Option`, `Result`, `max`/`min`, prefix test, Python's `str.join` |
| `Decimal` | decimal.dfy | Python's `str()` of a bound, and reading a numeral back |
| `WhereClause` | where_clause.dfy | `get_geohash_where_clause`, and a reader for the SQL it writes |
| `Precision` | precision.dfy | the yield bands and the precision step table |
| `Controller` | controller.dfy | the search loop, as a state machine over the loop's variables |
| `Params` | params.dfy | the parameter type guard, as written and as intended |
| `Results` | results.dfy | the location columns, the stable sort by distance, Python slicing |
| `NearbySearch` | search.dfy | `adaptive_geohash_nearby_search` end to end |

Some notes on how the model reads the code:

- A bound that is `None` or `0` is falsy in Python. It adds nothing to its
  sub-clause (`Truthy`).
- The float tests on `percent_returned = result_size / max_result_cap`
  become exact tests on rationals (`RatioBand`). Lemma
  `YieldBandIsRatioBand` proves they equal integer cross-multiplication.
- The loop body is the function `Controller.Step`. The method
  `Controller.AdaptivePrecisionSearch` runs it under a loop invariant. It
  returns the outcome and the list of count queries issued, called
  "probes".
- Each probe records the precision it was built at, the WHERE text sent
  and the count returned. Every loop property is stated over this list.

Where the code and its own comments or evident intent part ways, the
model follows the code, except that the end-to-end search decides the
exception by the intended guard (see "## Left out"):

- The guard on line 88 is evidently meant to raise `InvalidParamException`
  for any mistyped parameter. As written it raises in one case only. Both
  readings are modelled (see Findings). The end-to-end search uses the
  intended one; "## Left out" says what that changes.
- The comment on line 121 says a shrinking count stops the search and
  uses the previous where clause. The budget check on line 130 runs after
  that revert. So a shrinking count on the 20th query, below the cap,
  falls back instead (`Controller.FinalOutcome`).
- The docstring (lines 65-68) says the cuts follow the rules of list
  slicing, and nothing checks that they are non-negative or ordered. The
  model accepts any integers and applies Python's slice rules, negative
  indices included.
- The adjustment of precision still runs on a pass that stops on a
  shrinking count or on reaching the cap, though not on the pass that
  falls back for lack of budget (lines 130-133). The model keeps this,
  although the new value is never used.

## Model

| member | source | states |
|---|---|---|
| `Decimal.NatToString` | adaptive_geohash_sql.py:41-45 | `str(bound)` is a non-empty run of decimal digits, with no leading zero unless the bound is 0 |
| `Decimal.NatToStringValue` | adaptive_geohash_sql.py:41-45 | the digits written for a bound denote that bound |
| `Decimal.ParseNatToString` | adaptive_geohash_sql.py:41-45 | a bound's numeral, followed by a non-digit, reads back as the bound and leaves the rest untouched |
| `Common.Join` | adaptive_geohash_sql.py:49 | `" OR ".join(sub_clauses)`: empty for no parts; otherwise it starts with the first part and is as long as all parts plus one separator between each two neighbours |
| `WhereClause.Normalize` | adaptive_geohash_sql.py:40-45 | a bound takes part in the SQL exactly when it is truthy (not `None`, not 0) |
| `WhereClause.SubClause` | adaptive_geohash_sql.py:40-45 | a range adds at most one sub-clause, and exactly one when a bound is truthy; it opens with `(` and the column name and closes with `)` |
| `WhereClause.Filters` | adaptive_geohash_sql.py:38-46 | the ranges that yield a sub-clause: empty exactly when no range has a truthy bound, each keeps at least one bound |
| `WhereClause.SubClauses` | adaptive_geohash_sql.py:38-46 | no sub-clause is produced exactly when every range has two falsy bounds; at most one per range |
| `WhereClause.GeohashWhereClause` | adaptive_geohash_sql.py:21-49 | the result is `""` exactly when no range has a truthy bound; otherwise it starts with `(` and ends with `)` |
| `WhereClause.ClauseRoundTrip` | adaptive_geohash_sql.py:40-45 | a range with a truthy bound yields exactly one sub-clause: `(c>=lo AND c<hi)`, `(c>=lo)` or `(c<hi)`, by which bounds are truthy; it reads back as the range with falsy bounds dropped, whatever text follows |
| `WhereClause.DisjunctsRoundTrip` | adaptive_geohash_sql.py:46-49 | the `" OR "`-joined sub-clauses, closed by `)`, read back as the contributing ranges in input order |
| `WhereClause.GeohashWhereClauseRoundTrip` | adaptive_geohash_sql.py:38-49 | reading the WHERE clause back gives exactly the ranges with a truthy bound, in input order, falsy bounds dropped; `""` reads as "no range", never as "every row" |
| `Precision.RatioBand` | adaptive_geohash_sql.py:135-169 | the float cascade on `result_size / max_result_cap` sorts the ratio into disjoint intervals: 0, split into the large-cap band exactly when `1/cap < 0.05`, (0, 0.05], (0.05, 0.25), [0.25, 0.5) and [0.5, ...) |
| `Precision.YieldBand` | adaptive_geohash_sql.py:135-169 | the same bands by integer cross-multiplication: empty exactly when the count is 0 (the large-cap one exactly when `cap > 20`), then `20*count <= cap`, `4*count < cap`, `2*count < cap`, and the rest |
| `Precision.YieldBandIsRatioBand` | adaptive_geohash_sql.py:135-169 | the integer band table (`count == 0`, `20*count <= cap`, `4*count < cap`, `2*count < cap`, `cap > 20`) picks the same band as the ratio tests against 0, 0.05, 0.25 and 0.5, for every count and positive cap |
| `Precision.NextPrecision` | adaptive_geohash_sql.py:139-171 | above its floor (4 for the empty and below-25% bands, 3 for the 25-50% band, 0 for the top band) a band subtracts its step (8, 7, 6, 4, 2, 1) but stops at the floor; at or below the floor it subtracts exactly 1; the result is clamped at 0. Hence a positive precision drops by 1 to 8 and 0 stays 0 |
| `Precision.NextPrecisionStep` | adaptive_geohash_sql.py:139-170 | at precision at least the band's step plus 4, each band subtracts exactly its step: 8, 7, 6, 4, 2 or 1 |
| `Controller.ResultCap` | adaptive_geohash_sql.py:94-97 | the cap is at least 20 and at least `upper_cut`, and is one of the two |
| `Controller.FinalOutcome` | adaptive_geohash_sql.py:120-133 | a loop whose last query was issued falls back exactly when that count is below the cap and either the budget of 20 is spent or the count did not shrink; otherwise it accepts the previous clause when the count shrank, and else the current clause, which then has at least `cap` rows |
| `Controller.Step` | adaptive_geohash_sql.py:107-171 | one pass of the loop keeps the earlier queries; with an empty geohash clause it issues none and sets `stop` and `fall_back`; otherwise it issues exactly one, at the current precision, for the clause followed by the custom clause, with the count the database gives it |
| `Controller.AfterCount` | adaptive_geohash_sql.py:119-171 | after a count: the query is logged and `loop_count` grows by one; `fall_back` is set exactly when the count is below the cap and 20 queries were made; `stop` exactly when the count shrank, reached the cap or used up the budget; a shrink keeps the previous clause and baseline, otherwise the new count and clause become the baseline; precision moves by the step table unless the search falls back |
| `Controller.StepEmptyClause` | adaptive_geohash_sql.py:108-112 | an empty geohash clause ends the loop in fallback, with no query issued and nothing else changed |
| `Controller.TraceExtends` | adaptive_geohash_sql.py:113-119 | the next count query keeps the facts about the queries issued so far |
| `Controller.AfterCountContinues` | adaptive_geohash_sql.py:120-171 | a count that neither shrank nor reached the cap, with budget left, keeps the loop going; the count and clause become the new baseline and the precision is adjusted from that count |
| `Controller.AfterCountStops` | adaptive_geohash_sql.py:120-133 | any other count ends the loop: fallback when out of budget below the cap, otherwise the previous clause after a shrink, the current clause once the cap is reached |
| `Controller.StepProbe` | adaptive_geohash_sql.py:113-171 | a pass that issues a count query adds exactly one query and keeps the loop invariant |
| `Controller.StepKeepsInvariant` | adaptive_geohash_sql.py:107-171 | every pass of the loop keeps the invariant and either issues one more query or stops |
| `Controller.CountsNonDecreasing` | adaptive_geohash_sql.py:120-127 | while no count shrinks, the recorded baseline counts never decrease across queries |
| `Controller.AcceptedPredicateHasMostRows` | adaptive_geohash_sql.py:120-129 | the accepted clause was one of the queried clauses, and no query counted more rows; so a revert goes back to the largest count seen |
| `Controller.AdaptivePrecisionSearch` | adaptive_geohash_sql.py:94-171 | at most 20 count queries are issued; the first uses precision 50; precision stays in [0, 50]; it strictly decreases while positive and stays 0 once 0; each query is the non-empty geohash clause followed by the custom clause verbatim; every query but the last neither shrank nor reached the cap; there are no queries exactly when the clause at precision 50 is empty, and then the result is fallback; otherwise the last query decides, in this order: a 20th count below the cap falls back; a shrinking count reverts to the previous clause; reaching the cap accepts the current clause; any other ending falls back, and then the clause at the next precision is empty; an accepted clause is non-empty and has the largest count seen |
| `Params.RaisesAsWritten` | adaptive_geohash_sql.py:88-89 | the guard as written raises exactly when latitude is not a number and longitude is a number and both cuts are integers |
| `Params.CheckParams` | adaptive_geohash_sql.py:88-89 | the guard as intended fails exactly when a coordinate is not a number or a cut is not an integer; otherwise it yields their values |
| `Params.RaisesAsWrittenOnlyOnInvalid` | adaptive_geohash_sql.py:88-89 | the guard as written never rejects well-typed parameters |
| `Params.RaisesAsWrittenMissesInvalidLongitude` | adaptive_geohash_sql.py:88-89 | a string longitude, two string coordinates or a float cut all pass the guard as written; the intended guard rejects the string longitude and the float cut |
| `Params.NonNumericLatitudeRaises` | adaptive_geohash_sql.py:88-89 | a string latitude with a numeric longitude and integer cuts is rejected by both guards |
| `Results.WithLocationColumns` | adaptive_geohash_sql.py:90-93 | afterwards both location columns are selected; existing columns keep their places; at most two columns are appended, each a location column not already selected, with no duplicates; nothing changes exactly when both were already selected |
| `Results.WithLocationColumnsIdempotent` | adaptive_geohash_sql.py:90-93 | adding the location columns a second time changes nothing |
| `Results.Insert` | adaptive_geohash_sql.py:180 | inserting into a sorted list keeps it sorted and adds exactly that element |
| `Results.InsertWithKey` | adaptive_geohash_sql.py:180 | an inserted row goes ahead of the rows with an equal key, and rows with other keys keep their order |
| `Results.SortByKey` | adaptive_geohash_sql.py:180 | the sorted rows ascend by distance and are a permutation of the fetched rows |
| `Results.SortByKeyIsStable` | adaptive_geohash_sql.py:180 | for every distance value, rows at that distance keep their fetched order |
| `Results.SliceIndex` | adaptive_geohash_sql.py:181 | a slice bound counts from the end when negative and is clamped to `[0, n]` |
| `Results.PySlice` | adaptive_geohash_sql.py:181 | `s[lower:upper]` holds exactly the elements between the normalised bounds, in order; it is empty when they cross |
| `Results.PySliceNonNegative` | adaptive_geohash_sql.py:181 | with non-negative cuts the slice has `max(0, min(upper, n) - min(lower, n))` elements, never more than `upper - lower`, and exactly that many when `upper <= n`; element `k` is `s[lower + k]` |
| `Results.Page` | adaptive_geohash_sql.py:176-181 | the returned rows ascend by distance and are drawn from the fetched rows, each at most as often as fetched |
| `Results.PageLength` | adaptive_geohash_sql.py:181 | for non-negative cuts the page holds `max(0, min(upper_cut, n) - min(lower_cut, n))` rows: none when the cuts cross, at most `upper_cut - lower_cut` otherwise, and exactly that many when at least `upper_cut` rows were fetched |
| `NearbySearch.AdaptiveGeohashNearbySearch` | adaptive_geohash_sql.py:51-183 | mistyped parameters raise before any query. Otherwise both location columns are selected and at most 20 count queries run. The first query is at precision 50, and each later one is at the precision the previous count selects under the cap `max(upper_cut, 20)`. Each query's text is the geohash clause at that precision, which is never empty, plus the custom clause, and its recorded count is the count oracle's answer. Every count but the last is below the cap and not smaller than the one before. The result is `None` exactly when the loop falls back, and a fallback below the cap with budget left means the next clause was empty. Rows are returned only for a non-empty queried clause with the largest count seen; they are that clause's fetched rows, sorted by distance and sliced |

## Left out

- The body of `distance` (adaptive_geohash_sql.py:8-16) is floating-point trigonometry. It is a parameter of the search. So "distance of a point to itself is 0" and symmetry are not modelled.
- `geohash.encode_uint64` and `geohash.expand_uint64` (lines 39 and 98) belong to a foreign library whose code is not part of this model. They are parameters. The model does not limit their values to 64 bits.
- The two SQLAlchemy queries (lines 116-118 and 174-175) are database I/O. They are pure functions of the SQL text (and of the columns, for the fetch). Connection errors, timeouts and a table that changes between queries are not modelled.
- Access to a row's latitude and longitude (`row[lat_col]`, line 178) is folded into the distance parameter.
- Floats are exact rationals (`real`). The ratio tests agree with the float code only while the cap stays well below 2^53. Float coordinates cannot be NaN or infinite here.
- `select_cols` is changed in place in the source. The model returns the new column list instead.
- `in` on SQLAlchemy column objects is modelled as value equality.
- `NearbySearch.AdaptiveGeohashNearbySearch` decides the exception with the intended guard `Params.CheckParams`, not with the guard as written on line 88. The two differ exactly on the inputs that pass line 88 with a mistyped value (`Params.RaisesAsWrittenOnlyOnInvalid`, `Params.RaisesAsWrittenMissesInvalidLongitude`). On those the model returns `InvalidParam` before any query, but the source carries on:
  - lower_cut `0.5`, with the other three well typed, runs the whole loop. It returns `None` (line 183) when the loop falls back, and raises `TypeError` at the slice on line 181 after the fetch when a clause is accepted.
  - lower_cut `None` is a valid slice bound, so that search returns rows as for lower_cut 0.
  - A string or `None` upper_cut raises `TypeError` at `max` on line 97, before any query. A float upper_cut runs the loop against a float cap.
  - A non-numeric coordinate reaches `geohash.encode_uint64` on line 98, whose behaviour is not part of this model.
- `Results.PySliceNonNegative` and `Results.PageLength` give the page-length formula only for non-negative cuts. Negative cuts are covered only by the general contract of `Results.PySlice`.

## Findings

| source | as written | input that shows it | evidently intended | confidence | as-written member | corrected member |
|---|---|---|---|---|---|---|
| adaptive_geohash_sql.py:88-89 | the leading `not` applies to the whole `or` of the four type tests, not to the latitude test alone. So it raises only when latitude is mistyped and the other three are well typed | latitude `45.5`, longitude `"abc"`, cuts `0` and `10` pass without an exception; so do two string coordinates | raise `InvalidParamException` when either coordinate is not a number or either cut is not an integer | high; not executed | `Params.RaisesAsWrittenMissesInvalidLongitude` (guard: `Params.RaisesAsWritten`) | `Params.CheckParams` |

=== FILE: common.dfy ===
/** Small shared vocabulary: an optional value, integer max/min and the
    string helpers (prefix test, Python's `str.join`) the clause builder and
    its parser are stated with. */
module Common {

  /** A value that may be absent (Python's `None`). */
  datatype Option<+T> = None | Some(value: T)

  /** A value, or the error raised instead of it. */
  datatype Result<+T, +E> = Success(value: T) | Failure(error: E)

  function Max(a: int, b: int): int
  {
    if a >= b then a else b
  }

  function Min(a: int, b: int): int
  {
    if a <= b then a else b
  }

  /** True iff `p` is a prefix of `s`. */
  predicate StartsWith(s: string, p: string)
  {
    |p| <= |s| && s[..|p|] == p
  }

  lemma StartsWithAppend(p: string, rest: string)
    ensures StartsWith(p + rest, p)
    ensures (p + rest)[|p|..] == rest
  {
    assert (p + rest)[..|p|] == p;
  }

  /** The combined length of `parts`. */
  function TotalLength(parts: seq<string>): nat
  {
    if |parts| == 0 then 0 else |parts[0]| + TotalLength(parts[1..])
  }

  /** Python's `sep.join(parts)`: the parts in order, one separator between
      each two neighbours and none at either end. */
  function Join(sep: string, parts: seq<string>): (r: string)
    ensures |parts| == 0 ==> r == ""
    ensures |parts| > 0 ==> |r| == TotalLength(parts) + (|parts| - 1) * |sep|
    ensures |parts| > 0 ==> StartsWith(r, parts[0])
  {
    if |parts| == 0 then ""
    else if |parts| == 1 then parts[0]
    else parts[0] + sep + Join(sep, parts[1..])
  }
}

=== FILE: controller.dfy ===
/** The adaptive precision controller: the `while` loop of
    `adaptive_geohash_nearby_search`. Starting from precision 50 it asks the
    database how many rows the geohash predicate at the current precision
    selects, and lowers the precision (widens the search) until enough rows
    are found, the count shrinks, or the query budget is used up.

    The geohash expansion and the count query are parameters: every
    property below holds for every expansion and every count oracle. */
module Controller {
  import opened Common
  import opened WhereClause
  import opened Precision

  /** At most this many count queries are issued before giving up. */
  const MaxDbHits: nat := 20

  /** The least number of candidate rows the search tries to reach. */
  const MinResultCap: nat := 20

  /** `max(upper_cut, 20)`: how many candidate rows are enough. */
  function ResultCap(upperCut: int): (cap: nat)
    ensures cap >= MinResultCap && cap >= upperCut
    ensures cap == upperCut || cap == MinResultCap
  {
    if upperCut >= MinResultCap then upperCut as nat else MinResultCap
  }

  /** One count query: the precision it was built at, the full WHERE text
      sent to the database and the count that came back. */
  datatype Probe = Probe(precision: nat, where: string, count: nat)

  /** How the loop ends: give up on the geohash strategy, or accept a
      predicate for the row fetch. */
  datatype Outcome = Fallback | Converged(where: string)

  /** The geohash disjunction at a precision. */
  function GeoClause(expand: (nat, nat) -> seq<BoundRange>, key: nat, precision: nat, col: string): string
  {
    GeohashWhereClause(expand(key, precision), col)
  }

  /** A probe is one the loop issues: a non-empty geohash disjunction at its
      precision, followed verbatim by the custom clause, with the count the
      oracle gives for that text. */
  predicate ProbeIssued(p: Probe, clauseAt: nat -> string, count: string -> nat, custom: string)
  {
    var geo := clauseAt(p.precision);
    geo != "" && p.where == geo + custom && p.count == count(p.where)
  }

  /** The count probe `i` is compared with: that of the probe before it, or
      0 for the first probe. */
  function Baseline(probes: seq<Probe>, i: nat): nat
    requires i < |probes|
  {
    if i == 0 then 0 else probes[i - 1].count
  }

  /** Probe `i` found fewer rows than the probe before it. */
  predicate Regressed(probes: seq<Probe>, i: nat)
    requires i < |probes|
  {
    probes[i].count < Baseline(probes, i)
  }

  /** The precision after probe `p`. */
  function PrecisionAfter(p: Probe, cap: nat): nat
  {
    NextPrecision(p.precision, YieldBand(p.count, cap))
  }

  /** How a run whose last probe is the last of `probes` ends: out of budget
      without enough rows; else a shrinking count reverts to the previous
      predicate; else enough rows accept the last predicate; else the loop
      went on and the geohash disjunction came back empty. */
  function FinalOutcome(probes: seq<Probe>, cap: nat): (o: Outcome)
    requires |probes| > 0
    ensures var last := probes[|probes| - 1];
            o.Fallback? <==> last.count < cap && (|probes| >= MaxDbHits || !Regressed(probes, |probes| - 1))
    ensures o.Converged? && Regressed(probes, |probes| - 1) ==>
              |probes| > 1 && o.where == probes[|probes| - 2].where
    ensures o.Converged? && !Regressed(probes, |probes| - 1) ==>
              o.where == probes[|probes| - 1].where && probes[|probes| - 1].count >= cap
  {
    var n := |probes|;
    var last := probes[n - 1];
    if last.count < cap && n >= MaxDbHits then Fallback
    else if Regressed(probes, n - 1) then Converged(probes[n - 2].where)
    else if last.count >= cap then Converged(last.where)
    else Fallback
  }

  /** What the loop works against: the result cap, the custom clause, the
      geohash disjunction at each precision (for the fixed search centre and
      geohash column) and the count query. */
  datatype Env = Env(cap: nat, custom: string, clauseAt: nat -> string, count: string -> nat)

  /** The loop's variables, plus the count queries issued so far. */
  datatype SearchState = SearchState(
    precision: nat,
    previousPrecision: nat,
    previousResultSize: nat,
    previousWhere: string,
    where: string,
    loopCount: nat,
    stop: bool,
    fallBack: bool,
    probes: seq<Probe>)

  /** The variables as the loop starts. */
  function InitialState(): SearchState
  {
    SearchState(StartPrecision, StartPrecision, 0, "", "", 0, false, false, [])
  }

  /** How a finished loop is read: fall back, or fetch with `where`. */
  function StateOutcome(s: SearchState): Outcome
  {
    if s.fallBack then Fallback else Converged(s.where)
  }

  /** One pass of the loop body: it issues no count query and falls back
      when the geohash disjunction is empty, and otherwise exactly one,
      for that disjunction followed by the custom clause. */
  function Step(s: SearchState, e: Env): (r: SearchState)
    ensures var n := |s.probes|;
            && |r.probes| == n + (if e.clauseAt(s.precision) == "" then 0 else 1)
            && r.probes[..n] == s.probes
            && (e.clauseAt(s.precision) == "" ==> r.stop && r.fallBack && r.loopCount == s.loopCount)
            && (e.clauseAt(s.precision) != "" ==>
                  && r.probes[n].precision == s.precision
                  && ProbeIssued(r.probes[n], e.clauseAt, e.count, e.custom)
                  && r.loopCount == s.loopCount + 1)
  {
    var geo := e.clauseAt(s.precision);
    if |geo| == 0 then
      // Nothing left to narrow by: fall back to another search method.
      s.(stop := true, fallBack := true)
    else
      var where := if |e.custom| > 0 then geo + e.custom else geo;
      assert where == geo + e.custom;
      AfterCount(s, e, where, e.count(where))
  }

  /** The rest of the loop body, once the count query for `where` has
      returned `resultSize`. */
  function AfterCount(s: SearchState, e: Env, where: string, resultSize: nat): (r: SearchState)
    ensures r.probes == s.probes + [Probe(s.precision, where, resultSize)]
    ensures r.loopCount == s.loopCount + 1
    ensures r.fallBack <==> s.fallBack || (resultSize < e.cap && r.loopCount >= MaxDbHits)
    ensures r.stop <==>
              s.stop || resultSize < s.previousResultSize || resultSize >= e.cap || r.loopCount >= MaxDbHits
    ensures resultSize < s.previousResultSize ==>
              r.where == s.previousWhere && r.previousWhere == s.previousWhere
              && r.previousResultSize == s.previousResultSize
    ensures resultSize >= s.previousResultSize ==>
              r.where == where && r.previousWhere == where && r.previousResultSize == resultSize
    ensures resultSize < e.cap && r.loopCount >= MaxDbHits ==> r.precision == s.precision
    ensures !(resultSize < e.cap && r.loopCount >= MaxDbHits) ==>
              r.precision == PrecisionAfter(Probe(s.precision, where, resultSize), e.cap)
  {
    var loopCount := s.loopCount + 1;
    var probes := s.probes + [Probe(s.precision, where, resultSize)];
    var s1 :=
      if resultSize < s.previousResultSize then
        // The count shrank: keep the previous predicate.
        s.(where := s.previousWhere, stop := true, loopCount := loopCount, probes := probes)
      else
        s.(where := where, previousResultSize := resultSize, previousPrecision := s.precision,
           previousWhere := where, loopCount := loopCount, probes := probes);
    var s2 := if resultSize >= e.cap then s1.(stop := true) else s1;
    if resultSize < e.cap && loopCount >= MaxDbHits then
      // Query budget used up without enough rows.
      s2.(stop := true, fallBack := true)
    else
      s2.(precision := NextPrecision(s.precision, YieldBand(resultSize, e.cap)))
  }

  /** What holds of the count queries issued at any point of the loop. */
  predicate TraceOk(probes: seq<Probe>, e: Env)
  {
    && |probes| <= MaxDbHits
    && (forall i :: 0 <= i < |probes| ==> ProbeIssued(probes[i], e.clauseAt, e.count, e.custom))
    && (forall i :: 0 <= i < |probes| ==> probes[i].precision <= StartPrecision)
    && (|probes| > 0 ==> probes[0].precision == StartPrecision)
    && (forall i :: 0 <= i < |probes| - 1 ==> probes[i + 1].precision == PrecisionAfter(probes[i], e.cap))
    && (forall i :: 0 <= i < |probes| - 1 ==> !Regressed(probes, i) && probes[i].count < e.cap)
  }

  /** The loop goes on: the last probe neither shrank nor reached the cap,
      and the variables carry it as the baseline. */
  predicate Running(s: SearchState, e: Env)
  {
    var n := |s.probes|;
    && !s.stop && !s.fallBack
    && s.loopCount == n < MaxDbHits
    && s.precision <= StartPrecision
    && (n == 0 ==> s.precision == StartPrecision && s.previousResultSize == 0)
    && (n > 0 ==>
          && !Regressed(s.probes, n - 1)
          && s.probes[n - 1].count < e.cap
          && s.precision == PrecisionAfter(s.probes[n - 1], e.cap)
          && s.previousResultSize == s.probes[n - 1].count
          && s.previousWhere == s.probes[n - 1].where)
  }

  /** The loop has ended, as `FinalOutcome` says it ends. */
  predicate Finished(s: SearchState, e: Env)
  {
    var n := |s.probes|;
    && s.stop
    && (n == 0 ==> s.fallBack && e.clauseAt(StartPrecision) == "")
    && (n > 0 ==>
          && StateOutcome(s) == FinalOutcome(s.probes, e.cap)
          && (FinalOutcome(s.probes, e.cap).Fallback? && s.probes[n - 1].count < e.cap && n < MaxDbHits ==>
                e.clauseAt(PrecisionAfter(s.probes[n - 1], e.cap)) == ""))
  }

  predicate Invariant(s: SearchState, e: Env)
  {
    && TraceOk(s.probes, e)
    && s.loopCount == |s.probes|
    && (Running(s, e) || Finished(s, e))
  }

  /** The body run when the geohash disjunction is empty. */
  lemma StepEmptyClause(s: SearchState, e: Env)
    requires TraceOk(s.probes, e) && Running(s, e)
    requires e.clauseAt(s.precision) == ""
    ensures Step(s, e) == s.(stop := true, fallBack := true)
    ensures Invariant(Step(s, e), e)
  {
  }

  /** Appending the probe the loop issues next keeps the trace facts. */
  lemma TraceExtends(s: SearchState, e: Env, p: Probe)
    requires TraceOk(s.probes, e) && Running(s, e)
    requires ProbeIssued(p, e.clauseAt, e.count, e.custom)
    requires p.precision == s.precision
    ensures TraceOk(s.probes + [p], e)
  {
    var probes := s.probes + [p];
    var n := |probes|;
    forall i | 0 <= i < n
      ensures ProbeIssued(probes[i], e.clauseAt, e.count, e.custom)
      ensures probes[i].precision <= StartPrecision
    {
      if i < n - 1 {
        assert probes[i] == s.probes[i];
      } else {
        assert probes[i] == p;
      }
    }
    forall i | 0 <= i < n - 1
      ensures probes[i + 1].precision == PrecisionAfter(probes[i], e.cap)
      ensures !Regressed(probes, i) && probes[i].count < e.cap
    {
      assert probes[i] == s.probes[i];
      if i > 0 {
        assert probes[i - 1] == s.probes[i - 1];
      }
      if i + 1 < n - 1 {
        assert probes[i + 1] == s.probes[i + 1];
      } else {
        assert probes[i + 1] == p;
      }
    }
  }

  /** The body after a count that neither shrank nor reached the cap, with
      budget left: the loop goes on. */
  lemma AfterCountContinues(s: SearchState, e: Env, p: Probe)
    requires TraceOk(s.probes, e) && Running(s, e)
    requires ProbeIssued(p, e.clauseAt, e.count, e.custom)
    requires p.precision == s.precision
    requires s.previousResultSize <= p.count < e.cap && s.loopCount + 1 < MaxDbHits
    ensures Running(AfterCount(s, e, p.where, p.count), e)
  {
    var probes := s.probes + [p];
    var n := |probes|;
    assert probes[n - 1] == p;
    assert n - 1 > 0 ==> probes[n - 2] == s.probes[n - 2];
    assert Baseline(probes, n - 1) == s.previousResultSize;
  }

  /** The body after any other count: the loop ends as `FinalOutcome` says. */
  lemma AfterCountStops(s: SearchState, e: Env, p: Probe)
    requires TraceOk(s.probes, e) && Running(s, e)
    requires ProbeIssued(p, e.clauseAt, e.count, e.custom)
    requires p.precision == s.precision
    requires !(s.previousResultSize <= p.count < e.cap && s.loopCount + 1 < MaxDbHits)
    ensures Finished(AfterCount(s, e, p.where, p.count), e)
  {
    var probes := s.probes + [p];
    var n := |probes|;
    assert probes[n - 1] == p;
    assert n - 1 > 0 ==> probes[n - 2] == s.probes[n - 2];
    assert Baseline(probes, n - 1) == s.previousResultSize;
    assert n - 1 == 0 ==> s.previousResultSize == 0;
  }

  /** The body run when a count query is issued. */
  lemma StepProbe(s: SearchState, e: Env)
    requires TraceOk(s.probes, e) && Running(s, e)
    requires e.clauseAt(s.precision) != ""
    ensures Invariant(Step(s, e), e)
    ensures Step(s, e).loopCount == s.loopCount + 1
  {
    var geo := e.clauseAt(s.precision);
    var where := geo + e.custom;
    assert (if |e.custom| > 0 then geo + e.custom else geo) == where;
    var p := Probe(s.precision, where, e.count(where));
    assert Step(s, e) == AfterCount(s, e, where, p.count);
    TraceExtends(s, e, p);
    if s.previousResultSize <= p.count < e.cap && s.loopCount + 1 < MaxDbHits {
      AfterCountContinues(s, e, p);
    } else {
      AfterCountStops(s, e, p);
    }
  }

  lemma StepKeepsInvariant(s: SearchState, e: Env)
    requires Invariant(s, e) && !s.stop && !s.fallBack
    ensures Invariant(Step(s, e), e)
    ensures Step(s, e).loopCount == s.loopCount + 1
            || (Step(s, e).loopCount == s.loopCount && Step(s, e).stop)
  {
    if e.clauseAt(s.precision) == "" {
      StepEmptyClause(s, e);
    } else {
      StepProbe(s, e);
    }
  }

  /** Counts that never shrink from one probe to the next never shrink
      across any span of probes. */
  lemma {:induction false} CountsNonDecreasing(probes: seq<Probe>, m: nat)
    requires m <= |probes|
    requires forall i :: 0 <= i < m ==> !Regressed(probes, i)
    ensures forall i, j :: 0 <= i <= j < m ==> probes[i].count <= probes[j].count
  {
    if m > 0 {
      CountsNonDecreasing(probes, m - 1);
      if m > 1 {
        assert !Regressed(probes, m - 1);
        assert probes[m - 2].count <= probes[m - 1].count;
      }
    }
  }

  /** The predicate accepted for the fetch is one that was counted, and no
      probe counted more rows than it: a shrinking count reverts to the
      predicate of the largest count seen. */
  lemma AcceptedPredicateHasMostRows(probes: seq<Probe>, cap: nat)
    requires |probes| > 0
    requires forall i :: 0 <= i < |probes| - 1 ==> !Regressed(probes, i)
    requires FinalOutcome(probes, cap).Converged?
    ensures exists j :: 0 <= j < |probes| && FinalOutcome(probes, cap).where == probes[j].where
              && forall i :: 0 <= i < |probes| ==> probes[i].count <= probes[j].count
  {
    var n := |probes|;
    if Regressed(probes, n - 1) {
      CountsNonDecreasing(probes, n - 1);
      assert FinalOutcome(probes, cap).where == probes[n - 2].where;
      assert forall i :: 0 <= i < n ==> probes[i].count <= probes[n - 2].count;
    } else {
      CountsNonDecreasing(probes, n);
      assert forall i :: 0 <= i < n ==> probes[i].count <= probes[n - 1].count;
    }
  }

  /** The loop of `adaptive_geohash_nearby_search`, returning how it ended
      and the count queries it issued, in order. */
  method AdaptivePrecisionSearch(key: nat, upperCut: int, col: string, custom: string,
                                 expand: (nat, nat) -> seq<BoundRange>, count: string -> nat)
    returns (outcome: Outcome, probes: seq<Probe>)
    ensures |probes| <= MaxDbHits
    ensures forall i :: 0 <= i < |probes| ==> GeoClause(expand, key, probes[i].precision, col) != ""
    ensures forall i :: 0 <= i < |probes| ==>
              probes[i].where == GeoClause(expand, key, probes[i].precision, col) + custom
    ensures forall i :: 0 <= i < |probes| ==> probes[i].count == count(probes[i].where)
    ensures forall i :: 0 <= i < |probes| ==> probes[i].precision <= StartPrecision
    ensures |probes| > 0 ==> probes[0].precision == StartPrecision
    ensures forall i, j :: 0 <= i && j == i + 1 < |probes| ==>
              probes[j].precision == PrecisionAfter(probes[i], ResultCap(upperCut))
    ensures forall i :: 0 <= i < |probes| - 1 ==> !Regressed(probes, i)
    ensures forall i :: 0 <= i < |probes| - 1 ==> probes[i].count < ResultCap(upperCut)
    ensures |probes| == 0 <==> GeoClause(expand, key, StartPrecision, col) == ""
    ensures |probes| == 0 ==> outcome == Fallback
    ensures |probes| > 0 ==> outcome == FinalOutcome(probes, ResultCap(upperCut))
    ensures |probes| > 0 && outcome.Fallback?
              && probes[|probes| - 1].count < ResultCap(upperCut) && |probes| < MaxDbHits ==>
              GeoClause(expand, key, PrecisionAfter(probes[|probes| - 1], ResultCap(upperCut)), col) == ""
    ensures forall i, j :: 0 <= i && j == i + 1 < |probes| ==>
              (probes[i].precision > 0 ==> probes[j].precision < probes[i].precision)
              && (probes[i].precision == 0 ==> probes[j].precision == 0)
    ensures outcome.Converged? ==> outcome.where != ""
    ensures outcome.Converged? ==>
              exists j :: 0 <= j < |probes| && outcome.where == probes[j].where
                && forall i :: 0 <= i < |probes| ==> probes[i].count <= probes[j].count
  {
    var e := Env(ResultCap(upperCut), custom, (p: nat) => GeoClause(expand, key, p, col), count);
    var s := InitialState();
    while !s.stop && !s.fallBack
      invariant Invariant(s, e)
      decreases MaxDbHits - s.loopCount, if s.stop then 0 else 1
    {
      StepKeepsInvariant(s, e);
      s := Step(s, e);
    }
    outcome := StateOutcome(s);
    probes := s.probes;
    if outcome.Converged? {
      AcceptedPredicateHasMostRows(probes, e.cap);
    }
  }
}

=== FILE: decimal.dfy ===
/** Python's `str()` on a non-negative integer, and the inverse reading of a
    run of decimal digits used to check the rendered WHERE clause. */
module Decimal {
  import opened Common

  predicate IsDigit(c: char)
  {
    '0' <= c <= '9'
  }

  function DigitChar(d: nat): (c: char)
    requires d < 10
    ensures IsDigit(c)
  {
    ('0' as int + d) as char
  }

  function DigitValue(c: char): nat
    requires IsDigit(c)
  {
    (c as int - '0' as int) as nat
  }

  predicate AllDigits(s: string)
  {
    forall i :: 0 <= i < |s| ==> IsDigit(s[i])
  }

  /** The number a digit string denotes, most significant digit first. */
  function DigitsValue(s: string): nat
    requires AllDigits(s)
  {
    if |s| == 0 then 0
    else DigitsValue(s[..|s| - 1]) * 10 + DigitValue(s[|s| - 1])
  }

  /** `str(n)` for `n >= 0`: the shortest decimal numeral of `n`. */
  function NatToString(n: nat): (s: string)
    ensures |s| > 0 && AllDigits(s)
    ensures s[0] == '0' ==> n == 0
    ensures n == 0 ==> s == "0"
  {
    if n < 10 then [DigitChar(n)]
    else NatToString(n / 10) + [DigitChar(n % 10)]
  }

  /** Reading back the numeral gives the number. */
  lemma {:induction false} NatToStringValue(n: nat)
    ensures DigitsValue(NatToString(n)) == n
  {
    var s := NatToString(n);
    if n >= 10 {
      NatToStringValue(n / 10);
      assert s[..|s| - 1] == NatToString(n / 10);
    }
  }

  /** Number of leading digit characters of `s`. */
  function LeadingDigits(s: string): (k: nat)
    ensures k <= |s|
    ensures AllDigits(s[..k])
    ensures k < |s| ==> !IsDigit(s[k])
  {
    if |s| == 0 || !IsDigit(s[0]) then 0
    else
      var k := 1 + LeadingDigits(s[1..]);
      assert s[..k] == s[..1] + s[1..][..k - 1];
      k
  }

  /** Reads a maximal non-empty run of digits at the front of `s`, returning
      its value and the remaining text. */
  function ParseNat(s: string): (r: Option<(nat, string)>)
    ensures r.Some? ==> |r.value.1| < |s|
  {
    var k := LeadingDigits(s);
    if k == 0 then None
    else Some((DigitsValue(s[..k]), s[k..]))
  }

  lemma {:induction false} LeadingDigitsOfNumeral(d: string, rest: string)
    requires AllDigits(d)
    requires |rest| == 0 || !IsDigit(rest[0])
    ensures LeadingDigits(d + rest) == |d|
    decreases |d|
  {
    if |d| > 0 {
      assert (d + rest)[1..] == d[1..] + rest;
      LeadingDigitsOfNumeral(d[1..], rest);
    }
  }

  /** Round trip: the numeral of `n`, followed by text that does not start
      with a digit, reads back as `n` and leaves that text untouched. */
  lemma ParseNatToString(n: nat, rest: string)
    requires |rest| == 0 || !IsDigit(rest[0])
    ensures ParseNat(NatToString(n) + rest) == Some((n, rest))
  {
    var d := NatToString(n);
    LeadingDigitsOfNumeral(d, rest);
    assert (d + rest)[..|d|] == d;
    assert (d + rest)[|d|..] == rest;
    NatToStringValue(n);
  }
}

=== FILE: params.dfy ===
/** The parameter guard at the top of `adaptive_geohash_nearby_search`.

    Python values reach the search untyped; the guard is meant to raise
    `InvalidParamException` unless the coordinates are numbers and the cuts
    are integers. As written, its leading `not` negates the whole `or` of the
    four type tests instead of the first one alone, so it raises in just one
    combination of types. Both the guard as written and the guard as
    intended are modelled; the search uses the intended one. */
module Params {
  import opened Common

  /** The Python values a parameter may hold. */
  datatype PyValue =
    | PyBool(b: bool)
    | PyInt(i: int)
    | PyFloat(x: real)
    | PyStr(s: string)
    | PyNone

  /** `isinstance(v, (int, float))`; `bool` is a subclass of `int`. */
  predicate IsNumber(v: PyValue)
  {
    v.PyBool? || v.PyInt? || v.PyFloat?
  }

  /** `isinstance(v, int)`. */
  predicate IsInteger(v: PyValue)
  {
    v.PyBool? || v.PyInt?
  }

  function NumberValue(v: PyValue): real
    requires IsNumber(v)
  {
    match v
    case PyBool(b) => if b then 1.0 else 0.0
    case PyInt(i) => i as real
    case PyFloat(x) => x
  }

  function IntegerValue(v: PyValue): int
    requires IsInteger(v)
  {
    match v
    case PyBool(b) => if b then 1 else 0
    case PyInt(i) => i
  }

  /** The guard as written: true when it raises `InvalidParamException`. */
  function RaisesAsWritten(latitude: PyValue, longitude: PyValue, lowerCut: PyValue, upperCut: PyValue): (raises: bool)
    ensures raises <==>
              !IsNumber(latitude) && IsNumber(longitude) && IsInteger(lowerCut) && IsInteger(upperCut)
  {
    !(IsNumber(latitude) || !IsNumber(longitude) || !IsInteger(lowerCut) || !IsInteger(upperCut))
  }

  /** The typed parameters the search works with. */
  datatype SearchParams = SearchParams(latitude: real, longitude: real, lowerCut: int, upperCut: int)

  /** The error the guard raises. */
  datatype ParamError = InvalidParamException

  /** The guard as intended: the parameters, typed, or
      `InvalidParamException` when any of them has the wrong type. */
  function CheckParams(latitude: PyValue, longitude: PyValue, lowerCut: PyValue, upperCut: PyValue)
    : (r: Result<SearchParams, ParamError>)
    ensures r.Success? <==>
              IsNumber(latitude) && IsNumber(longitude) && IsInteger(lowerCut) && IsInteger(upperCut)
    ensures r.Success? ==>
              r.value == SearchParams(NumberValue(latitude), NumberValue(longitude),
                                      IntegerValue(lowerCut), IntegerValue(upperCut))
  {
    if IsNumber(latitude) && IsNumber(longitude) && IsInteger(lowerCut) && IsInteger(upperCut) then
      Success(SearchParams(NumberValue(latitude), NumberValue(longitude),
                           IntegerValue(lowerCut), IntegerValue(upperCut)))
    else Failure(InvalidParamException)
  }

  /** Whenever the guard as written raises, the intended guard raises too:
      it never rejects well-typed parameters. */
  lemma RaisesAsWrittenOnlyOnInvalid(latitude: PyValue, longitude: PyValue, lowerCut: PyValue, upperCut: PyValue)
    ensures RaisesAsWritten(latitude, longitude, lowerCut, upperCut) ==>
              CheckParams(latitude, longitude, lowerCut, upperCut).Failure?
  {
  }

  /** The discrepancy: a non-numeric longitude (or both coordinates
      non-numeric, or a non-integer cut) passes the guard as written. */
  lemma RaisesAsWrittenMissesInvalidLongitude()
    ensures !RaisesAsWritten(PyFloat(45.5), PyStr("abc"), PyInt(0), PyInt(10))
    ensures CheckParams(PyFloat(45.5), PyStr("abc"), PyInt(0), PyInt(10)).Failure?
    ensures !RaisesAsWritten(PyStr("abc"), PyStr("abc"), PyInt(0), PyInt(10))
    ensures !RaisesAsWritten(PyFloat(45.5), PyFloat(-73.5), PyFloat(0.5), PyInt(10))
    ensures CheckParams(PyFloat(45.5), PyFloat(-73.5), PyFloat(0.5), PyInt(10)).Failure?
  {
  }

  /** A non-numeric latitude with otherwise well-typed parameters is
      rejected by both guards. */
  lemma NonNumericLatitudeRaises(s: string, longitude: PyValue, lowerCut: int, upperCut: int)
    requires IsNumber(longitude)
    ensures RaisesAsWritten(PyStr(s), longitude, PyInt(lowerCut), PyInt(upperCut))
    ensures CheckParams(PyStr(s), longitude, PyInt(lowerCut), PyInt(upperCut)).Failure?
  {
  }
}

=== FILE: precision.dfy ===
/** The precision adjustment of the adaptive search: after each count probe
    the geohash precision is lowered (the search cell widened) by a step
    chosen from the yield `count / cap`. */
module Precision {
  import opened Common

  /** The precision the search starts from. */
  const StartPrecision: nat := 50

  /** The yield bands the adjustment distinguishes, in the order the
      cascade considers them. */
  datatype Band =
    | EmptyLargeCap   // nothing found and 1/cap < 0.05
    | EmptySmallCap   // nothing found and 1/cap >= 0.05
    | UpToFivePercent // 0 < yield <= 0.05
    | BelowQuarter    // 0.05 < yield < 0.25
    | BelowHalf       // 0.25 <= yield < 0.5
    | HalfOrMore      // yield >= 0.5

  /** The band cascade as written, over the exact ratio `count / cap`. */
  function RatioBand(count: nat, cap: nat): (b: Band)
    requires cap > 0
    ensures var p := (count as real) / (cap as real);
            && ((b == EmptyLargeCap || b == EmptySmallCap) <==> p == 0.0)
            && (b == EmptyLargeCap <==> p == 0.0 && 1.0 / (cap as real) < 0.05)
            && (b == UpToFivePercent <==> 0.0 < p <= 0.05)
            && (b == BelowQuarter <==> 0.05 < p < 0.25)
            && (b == BelowHalf <==> 0.25 <= p < 0.5)
            && (b == HalfOrMore <==> 0.5 <= p)
  {
    var percent := (count as real) / (cap as real);
    if percent == 0.0 && 1.0 / (cap as real) < 0.05 then EmptyLargeCap
    else if percent == 0.0 && 1.0 / (cap as real) >= 0.05 then EmptySmallCap
    else if percent <= 0.05 then UpToFivePercent
    else if percent < 0.25 then BelowQuarter
    else if percent < 0.5 then BelowHalf
    else HalfOrMore
  }

  /** The same cascade in integer arithmetic, by cross-multiplication. */
  function YieldBand(count: nat, cap: nat): (b: Band)
    ensures (b == EmptyLargeCap || b == EmptySmallCap) <==> count == 0
    ensures b == EmptyLargeCap <==> count == 0 && cap > 20
    ensures b == UpToFivePercent <==> 0 < count && 20 * count <= cap
    ensures b == BelowQuarter <==> cap < 20 * count && 4 * count < cap
    ensures b == BelowHalf <==> cap <= 4 * count && 2 * count < cap
    ensures b == HalfOrMore <==> 0 < count && cap <= 2 * count
  {
    if count == 0 && cap > 20 then EmptyLargeCap
    else if count == 0 then EmptySmallCap
    else if 20 * count <= cap then UpToFivePercent
    else if 4 * count < cap then BelowQuarter
    else if 2 * count < cap then BelowHalf
    else HalfOrMore
  }

  /** Dividing by a positive denominator and comparing with a threshold is
      comparing with the threshold times the denominator. */
  lemma DivideCompare(c: real, k: real, t: real)
    requires k > 0.0
    ensures (c / k < t) <==> c < t * k
    ensures (c / k <= t) <==> c <= t * k
    ensures (c / k == t) <==> c == t * k
  {
    var p := c / k;
    assert p * k == c;
    if p < t {
      assert p * k < t * k;
    }
    if p > t {
      assert p * k > t * k;
    }
  }

  lemma RatioFacts(count: nat, cap: nat)
    requires cap > 0
    ensures ((count as real) / (cap as real) == 0.0) <==> count == 0
    ensures (1.0 / (cap as real) < 0.05) <==> cap > 20
    ensures ((count as real) / (cap as real) <= 0.05) <==> 20 * count <= cap
    ensures ((count as real) / (cap as real) < 0.25) <==> 4 * count < cap
    ensures ((count as real) / (cap as real) < 0.5) <==> 2 * count < cap
  {
    var c := count as real;
    var k := cap as real;
    DivideCompare(c, k, 0.0);
    DivideCompare(1.0, k, 0.05);
    DivideCompare(c, k, 0.05);
    DivideCompare(c, k, 0.25);
    DivideCompare(c, k, 0.5);
    assert (20 * count) as real == 20.0 * c;
    assert (4 * count) as real == 4.0 * c;
    assert (2 * count) as real == 2.0 * c;
  }

  /** The integer band table agrees with the ratio cascade for every count
      and every positive cap. */
  lemma YieldBandIsRatioBand(count: nat, cap: nat)
    requires cap > 0
    ensures YieldBand(count, cap) == RatioBand(count, cap)
  {
    RatioFacts(count, cap);
  }

  /** The precision after one adjustment: the band's step, with the band's
      floor, or a single step down once precision is at that floor; never
      below 0. */
  function NextPrecision(precision: nat, band: Band): (next: nat)
    ensures precision > 0 ==> next < precision
    ensures precision == 0 ==> next == 0
    ensures next + 8 >= precision
    ensures band != BelowHalf && band != HalfOrMore && precision > 4 ==> next >= 4
    ensures band == BelowHalf && precision > 3 ==> next >= 3
    ensures band == HalfOrMore || precision <= 3 ==> next == Max(0, precision - 1)
    ensures precision > FloorOf(band) ==> next == Max(FloorOf(band), precision - StepOf(band))
    ensures precision <= FloorOf(band) ==> next == Max(0, precision - 1)
  {
    var stepped :=
      match band
      case EmptyLargeCap => if precision <= 4 then precision - 1 else Max(4, precision - 8)
      case EmptySmallCap => if precision <= 4 then precision - 1 else Max(4, precision - 7)
      case UpToFivePercent => if precision <= 4 then precision - 1 else Max(4, precision - 6)
      case BelowQuarter => if precision <= 4 then precision - 1 else Max(4, precision - 4)
      case BelowHalf => if precision <= 3 then precision - 1 else Max(3, precision - 2)
      case HalfOrMore => precision - 1;
    Max(0, stepped)
  }

  /** The size of the step each band asks for above its floor. */
  function StepOf(band: Band): nat
  {
    match band
    case EmptyLargeCap => 8
    case EmptySmallCap => 7
    case UpToFivePercent => 6
    case BelowQuarter => 4
    case BelowHalf => 2
    case HalfOrMore => 1
  }

  /** The precision each band's step stops at; at or below it the band
      lowers precision by one. */
  function FloorOf(band: Band): nat
  {
    match band
    case EmptyLargeCap => 4
    case EmptySmallCap => 4
    case UpToFivePercent => 4
    case BelowQuarter => 4
    case BelowHalf => 3
    case HalfOrMore => 0
  }

  /** Above the floors, each band lowers precision by exactly its step. */
  lemma NextPrecisionStep(precision: nat, band: Band)
    requires precision >= StepOf(band) + 4
    ensures NextPrecision(precision, band) == precision - StepOf(band)
  {
  }
}

=== FILE: results.dfy ===
/** Result materialisation: the projection always carries the latitude and
    longitude columns, and the fetched rows are stably sorted by their
    distance to the search centre and cut to the requested page with
    Python's slice rules. */
module Results {
  import opened Common

  // ---------------------------------------------------------------------
  // Selected columns

  /** `select_cols` after the two membership checks: the latitude column is
      appended when missing, then the longitude column when missing. */
  function WithLocationColumns<C(==)>(cols: seq<C>, latCol: C, lonCol: C): (r: seq<C>)
    ensures latCol in r && lonCol in r
    ensures |cols| <= |r| <= |cols| + 2
    ensures r[..|cols|] == cols
    ensures forall i :: |cols| <= i < |r| ==> (r[i] == latCol || r[i] == lonCol) && r[i] !in cols
    ensures forall i, j :: |cols| <= i < j < |r| ==> r[i] != r[j]
    ensures (latCol in cols && lonCol in cols) <==> r == cols
  {
    var withLat := if latCol !in cols then cols + [latCol] else cols;
    if lonCol !in withLat then withLat + [lonCol] else withLat
  }

  /** Adding the location columns a second time changes nothing. */
  lemma WithLocationColumnsIdempotent<C>(cols: seq<C>, latCol: C, lonCol: C)
    ensures WithLocationColumns(WithLocationColumns(cols, latCol, lonCol), latCol, lonCol)
         == WithLocationColumns(cols, latCol, lonCol)
  {
  }

  // ---------------------------------------------------------------------
  // Stable sort by distance

  /** Keys ascend along `s`. */
  predicate SortedBy<T>(s: seq<T>, key: T -> real)
  {
    forall i, j :: 0 <= i < j < |s| ==> key(s[i]) <= key(s[j])
  }

  /** The elements of `s` whose key is `k`, in their order in `s`. */
  function WithKey<T>(s: seq<T>, key: T -> real, k: real): seq<T>
  {
    if |s| == 0 then []
    else (if key(s[0]) == k then [s[0]] else []) + WithKey(s[1..], key, k)
  }

  lemma SortedCons<T>(a: T, s: seq<T>, key: T -> real)
    requires SortedBy(s, key)
    requires |s| > 0 ==> key(a) <= key(s[0])
    ensures SortedBy([a] + s, key)
  {
    var r := [a] + s;
    forall i, j | 0 <= i < j < |r|
      ensures key(r[i]) <= key(r[j])
    {
      if i == 0 {
        assert r[j] == s[j - 1];
        if j > 1 {
          assert key(s[0]) <= key(s[j - 1]);
        }
      } else {
        assert r[i] == s[i - 1] && r[j] == s[j - 1];
      }
    }
  }

  /** Places `x` before the first element of `s` whose key is not smaller,
      so it stays ahead of the elements with an equal key. */
  function Insert<T>(x: T, s: seq<T>, key: T -> real): (r: seq<T>)
    requires SortedBy(s, key)
    ensures SortedBy(r, key)
    ensures multiset(r) == multiset(s) + multiset{x}
    ensures |r| == |s| + 1
    ensures r[0] == x || (|s| > 0 && r[0] == s[0])
  {
    if |s| == 0 || key(x) <= key(s[0]) then
      SortedCons(x, s, key);
      [x] + s
    else
      var rest := Insert(x, s[1..], key);
      assert SortedBy(s[1..], key);
      assert |s| > 1 ==> key(s[0]) <= key(s[1]);
      SortedCons(s[0], rest, key);
      assert s == [s[0]] + s[1..];
      [s[0]] + rest
  }

  lemma WithKeyCons<T>(a: T, s: seq<T>, key: T -> real, k: real)
    ensures WithKey([a] + s, key, k) == (if key(a) == k then [a] else []) + WithKey(s, key, k)
  {
    assert ([a] + s)[1..] == s;
  }

  /** Inserting `x` puts it first among the elements with its key and
      leaves the elements with any other key as they were. */
  lemma {:induction false} InsertWithKey<T>(x: T, s: seq<T>, key: T -> real, k: real)
    requires SortedBy(s, key)
    ensures WithKey(Insert(x, s, key), key, k) == (if key(x) == k then [x] else []) + WithKey(s, key, k)
  {
    if |s| == 0 || key(x) <= key(s[0]) {
      WithKeyCons(x, s, key, k);
    } else {
      var rest := Insert(x, s[1..], key);
      assert SortedBy(s[1..], key);
      InsertWithKey(x, s[1..], key, k);
      WithKeyCons(s[0], rest, key, k);
      assert s == [s[0]] + s[1..];
      WithKeyCons(s[0], s[1..], key, k);
      assert key(x) == k ==> key(s[0]) != k;
    }
  }

  /** Python's `sorted(rows, key=...)`: ascending by key, keeping rows with
      equal keys in their input order. */
  function SortByKey<T>(s: seq<T>, key: T -> real): (r: seq<T>)
    ensures SortedBy(r, key)
    ensures multiset(r) == multiset(s)
    ensures |r| == |s|
  {
    if |s| == 0 then []
    else
      assert s == [s[0]] + s[1..];
      Insert(s[0], SortByKey(s[1..], key), key)
  }

  /** Stability: for every key, the rows with that key appear in the sorted
      list in the same order as in the input. */
  lemma {:induction false} SortByKeyIsStable<T>(s: seq<T>, key: T -> real, k: real)
    ensures WithKey(SortByKey(s, key), key, k) == WithKey(s, key, k)
  {
    if |s| > 0 {
      SortByKeyIsStable(s[1..], key, k);
      InsertWithKey(s[0], SortByKey(s[1..], key), key, k);
    }
  }

  // ---------------------------------------------------------------------
  // Python slicing

  /** A slice bound as Python normalises it for a sequence of length `n`:
      negative bounds count from the end, and the result is clamped to
      `[0, n]`. */
  function SliceIndex(i: int, n: nat): (r: nat)
    ensures r <= n
    ensures 0 <= i ==> r == Min(i, n)
    ensures i < 0 ==> r == Max(0, n + i)
  {
    if i < 0 then (if n + i < 0 then 0 else n + i)
    else if i > n then n
    else i
  }

  /** `s[lower:upper]`. */
  function PySlice<T>(s: seq<T>, lower: int, upper: int): (r: seq<T>)
    ensures var lo, hi := SliceIndex(lower, |s|), SliceIndex(upper, |s|);
            |r| == Max(0, hi - lo) && forall k :: 0 <= k < |r| ==> r[k] == s[lo + k]
  {
    var lo, hi := SliceIndex(lower, |s|), SliceIndex(upper, |s|);
    if lo < hi then s[lo..hi] else []
  }

  /** With non-negative cuts the page holds the rows at positions
      `lower .. upper - 1` that exist: never more than `upper - lower`, and
      exactly that many when there are at least `upper` rows. */
  lemma PySliceNonNegative<T>(s: seq<T>, lower: int, upper: int)
    requires 0 <= lower && 0 <= upper
    ensures |PySlice(s, lower, upper)| == Max(0, Min(upper, |s|) - Min(lower, |s|))
    ensures |PySlice(s, lower, upper)| <= Max(0, upper - lower)
    ensures upper <= |s| && lower <= upper ==> |PySlice(s, lower, upper)| == upper - lower
    ensures forall k :: 0 <= k < |PySlice(s, lower, upper)| ==> PySlice(s, lower, upper)[k] == s[lower + k]
  {
  }

  lemma SliceMultiset<T>(s: seq<T>, lo: nat, hi: nat)
    requires lo <= hi <= |s|
    ensures multiset(s[lo..hi]) <= multiset(s)
  {
    assert s == s[..lo] + s[lo..hi] + s[hi..];
  }

  /** The returned page: the fetched rows sorted by distance, then sliced. */
  function Page<T>(rows: seq<T>, distance: T -> real, lowerCut: int, upperCut: int): (r: seq<T>)
    ensures SortedBy(r, distance)
    ensures multiset(r) <= multiset(rows)
  {
    var sorted := SortByKey(rows, distance);
    var r := PySlice(sorted, lowerCut, upperCut);
    var lo, hi := SliceIndex(lowerCut, |sorted|), SliceIndex(upperCut, |sorted|);
    if lo < hi then
      assert r == sorted[lo..hi];
      SliceMultiset(sorted, lo, hi);
      r
    else r
  }

  /** With non-negative cuts a page of `n` fetched rows holds
      `max(0, min(upper, n) - min(lower, n))` rows: none when the cuts cross,
      never more than `upper - lower`, and exactly that many whenever at
      least `upper` rows were fetched. */
  lemma PageLength<T>(rows: seq<T>, distance: T -> real, lowerCut: int, upperCut: int)
    requires 0 <= lowerCut && 0 <= upperCut
    ensures |Page(rows, distance, lowerCut, upperCut)|
              == Max(0, Min(upperCut, |rows|) - Min(lowerCut, |rows|))
    ensures upperCut <= lowerCut ==> Page(rows, distance, lowerCut, upperCut) == []
    ensures lowerCut <= upperCut ==> |Page(rows, distance, lowerCut, upperCut)| <= upperCut - lowerCut
    ensures lowerCut <= upperCut <= |rows| ==>
              |Page(rows, distance, lowerCut, upperCut)| == upperCut - lowerCut
  {
    PySliceNonNegative(SortByKey(rows, distance), lowerCut, upperCut);
  }
}

=== FILE: search.dfy ===
/** `adaptive_geohash_nearby_search` end to end: check the parameters, add
    the location columns to the projection, run the adaptive precision loop,
    and either give up (`None` from `adaptive_geohash_nearby_search`,
    `SearchFallback` here) or fetch the rows of the accepted predicate, sort
    them by distance and return the requested slice.

    The geohash codec, the two database queries and the distance formula
    are parameters. */
module NearbySearch {
  import opened Common
  import opened WhereClause
  import opened Precision
  import opened Controller
  import opened Params
  import opened Results

  /** What the search returns: the exception, the signal to use another
      search method, or a page of rows. */
  datatype SearchResult<Row> = InvalidParam | SearchFallback | Rows(rows: seq<Row>)

  /** The key of the search centre, once the parameters are typed. */
  function CentreKey(p: SearchParams, encode: (real, real) -> nat): nat
  {
    encode(p.latitude, p.longitude)
  }

  method AdaptiveGeohashNearbySearch<Row, Col(==)>(
    latitude: PyValue, longitude: PyValue, lowerCut: PyValue, upperCut: PyValue,
    selectCols: seq<Col>, latCol: Col, lonCol: Col, geoCol: string, custom: string,
    encode: (real, real) -> nat,
    expand: (nat, nat) -> seq<BoundRange>,
    count: string -> nat,
    fetch: (seq<Col>, string) -> seq<Row>,
    distance: (real, real, Row) -> real)
    returns (result: SearchResult<Row>, columns: seq<Col>, outcome: Outcome, probes: seq<Probe>)
    ensures result.InvalidParam? <==> CheckParams(latitude, longitude, lowerCut, upperCut).Failure?
    ensures result.InvalidParam? ==> probes == [] && columns == selectCols
    ensures !result.InvalidParam? ==> columns == WithLocationColumns(selectCols, latCol, lonCol)
    ensures |probes| <= MaxDbHits
    ensures result.SearchFallback? <==> !result.InvalidParam? && outcome.Fallback?
    ensures !result.InvalidParam? ==>
              var p := CheckParams(latitude, longitude, lowerCut, upperCut).value;
              var key := CentreKey(p, encode);
              && (|probes| == 0 <==> GeoClause(expand, key, StartPrecision, geoCol) == "")
              && (|probes| == 0 ==> outcome == Fallback)
              && (|probes| > 0 ==> outcome == FinalOutcome(probes, ResultCap(p.upperCut)))
              && (forall i :: 0 <= i < |probes| ==> GeoClause(expand, key, probes[i].precision, geoCol) != "")
              && (forall i :: 0 <= i < |probes| ==>
                    probes[i].where == GeoClause(expand, key, probes[i].precision, geoCol) + custom)
              && (|probes| > 0 && outcome.Fallback?
                    && probes[|probes| - 1].count < ResultCap(p.upperCut) && |probes| < MaxDbHits ==>
                    GeoClause(expand, key, PrecisionAfter(probes[|probes| - 1], ResultCap(p.upperCut)), geoCol) == "")
              && (result.Rows? ==>
                    && outcome.Converged?
                    && outcome.where != ""
                    && (exists j :: 0 <= j < |probes| && outcome.where == probes[j].where
                          && forall i :: 0 <= i < |probes| ==> probes[i].count <= probes[j].count)
                    && result.rows == Page(fetch(columns, outcome.where),
                                           (row: Row) => distance(p.latitude, p.longitude, row),
                                           p.lowerCut, p.upperCut)
                    && SortedBy(result.rows, (row: Row) => distance(p.latitude, p.longitude, row))
                    && multiset(result.rows) <= multiset(fetch(columns, outcome.where)))
    ensures forall i :: 0 <= i < |probes| ==> probes[i].count == count(probes[i].where)
    ensures |probes| > 0 ==> probes[0].precision == StartPrecision
    ensures !result.InvalidParam? ==>
              var cap := ResultCap(CheckParams(latitude, longitude, lowerCut, upperCut).value.upperCut);
              forall i, j :: 0 <= i && j == i + 1 < |probes| ==> probes[j].precision == PrecisionAfter(probes[i], cap)
    ensures forall i :: 0 <= i < |probes| - 1 ==> !Regressed(probes, i)
    ensures !result.InvalidParam? ==>
              var cap := ResultCap(CheckParams(latitude, longitude, lowerCut, upperCut).value.upperCut);
              forall i :: 0 <= i < |probes| - 1 ==> probes[i].count < cap
  {
    columns := selectCols;
    var checked := CheckParams(latitude, longitude, lowerCut, upperCut);
    if checked.Failure? {
      result, outcome, probes := InvalidParam, Fallback, [];
      return;
    }
    var p := checked.value;
    columns := WithLocationColumns(columns, latCol, lonCol);
    var key := CentreKey(p, encode);
    outcome, probes := AdaptivePrecisionSearch(key, p.upperCut, geoCol, custom, expand, count);
    if outcome.Fallback? {
      result := SearchFallback;
    } else {
      var data := fetch(columns, outcome.where);
      var byDistance := (row: Row) => distance(p.latitude, p.longitude, row);
      result := Rows(Page(data, byDistance, p.lowerCut, p.upperCut));
    }
  }
}

=== FILE: where_clause.dfy ===
/** The geohash predicate builder, `get_geohash_where_clause`: it renders the
    bound ranges that the geohash library produces for a key and a precision
    as a SQL disjunction over the geohash column.

    The rendering is paired with a reader for exactly the SQL shapes it
    produces; the round trip shows that the text says precisely "the value
    lies in one of the ranges that has a truthy bound", in input order. */
module WhereClause {
  import opened Common
  import opened Decimal

  /** One entry of `geohash.expand_uint64(key, precision)`: a pair whose
      components are an integer or `None`. */
  datatype BoundRange = BoundRange(lower: Option<nat>, upper: Option<nat>)

  /** Python truthiness of a bound: `None` and `0` are both false. */
  predicate Truthy(b: Option<nat>)
  {
    b.Some? && b.value != 0
  }

  /** A range yields a sub-clause iff one of its bounds is truthy. */
  predicate Contributes(r: BoundRange)
  {
    Truthy(r.lower) || Truthy(r.upper)
  }

  /** The range as SQL understands it: falsy bounds are dropped. */
  function Normalize(r: BoundRange): (f: BoundRange)
    ensures f.lower.Some? <==> Truthy(r.lower)
    ensures f.upper.Some? <==> Truthy(r.upper)
    ensures f.lower.Some? ==> f.lower == r.lower
    ensures f.upper.Some? ==> f.upper == r.upper
  {
    BoundRange(if Truthy(r.lower) then r.lower else None,
               if Truthy(r.upper) then r.upper else None)
  }

  /** The ranges the SQL predicate is made of, in input order: the
      contributing ranges with their falsy bounds dropped. */
  function Filters(ranges: seq<BoundRange>): (fs: seq<BoundRange>)
    ensures |fs| == 0 <==> forall i :: 0 <= i < |ranges| ==> !Contributes(ranges[i])
    ensures forall i :: 0 <= i < |fs| ==> fs[i].lower.Some? || fs[i].upper.Some?
  {
    if |ranges| == 0 then []
    else if Contributes(ranges[0]) then [Normalize(ranges[0])] + Filters(ranges[1..])
    else Filters(ranges[1..])
  }

  /** The sub-clause a single range adds to `sub_clauses`, if any: one
      parenthesised comparison on `col` exactly when a bound is truthy. */
  function SubClause(r: BoundRange, col: string): (cs: seq<string>)
    ensures |cs| <= 1
    ensures |cs| == 1 <==> Contributes(r)
    ensures |cs| == 1 ==> StartsWith(cs[0], "(" + col) && cs[0][|cs[0]| - 1] == ')'
  {
    if Truthy(r.lower) && Truthy(r.upper) then
      ["(" + col + ">=" + NatToString(r.lower.value) + " AND " + col + "<" + NatToString(r.upper.value) + ")"]
    else if Truthy(r.lower) then
      ["(" + col + ">=" + NatToString(r.lower.value) + ")"]
    else if Truthy(r.upper) then
      ["(" + col + "<" + NatToString(r.upper.value) + ")"]
    else []
  }

  /** The text of a sub-clause after its leading `(c`. */
  function SubClauseBody(r: BoundRange, col: string): string
    requires Contributes(r)
  {
    if Truthy(r.lower) && Truthy(r.upper) then
      ">=" + NatToString(r.lower.value) + " AND " + col + "<" + NatToString(r.upper.value) + ")"
    else if Truthy(r.lower) then
      ">=" + NatToString(r.lower.value) + ")"
    else
      "<" + NatToString(r.upper.value) + ")"
  }

  /** All sub-clauses, in the order of the ranges. */
  function SubClauses(ranges: seq<BoundRange>, col: string): (cs: seq<string>)
    ensures |cs| == 0 <==> forall i :: 0 <= i < |ranges| ==> !Contributes(ranges[i])
    ensures |cs| <= |ranges|
  {
    if |ranges| == 0 then []
    else SubClause(ranges[0], col) + SubClauses(ranges[1..], col)
  }

  /** `get_geohash_where_clause` applied to the expanded ranges: the
      parenthesised `" OR "`-join of the sub-clauses, or `""` when no range
      has a truthy bound. */
  function GeohashWhereClause(ranges: seq<BoundRange>, col: string): (w: string)
    ensures w == "" <==> forall i :: 0 <= i < |ranges| ==> !Contributes(ranges[i])
    ensures w != "" ==> w[0] == '(' && w[|w| - 1] == ')'
  {
    var cs := SubClauses(ranges, col);
    if |cs| == 0 then ""
    else "(" + Join(" OR ", cs) + ")"
  }

  // ---------------------------------------------------------------------
  // Reading the predicate back

  /** Reads one sub-clause `(c>=lo AND c<hi)`, `(c>=lo)` or `(c<hi)` over the
      column `col` from the front of `s`. */
  function ParseClause(s: string, col: string): (r: Option<(BoundRange, string)>)
    ensures r.Some? ==> |r.value.1| < |s|
  {
    var head := "(" + col;
    if StartsWith(s, head) then ParseComparison(s[|head|..], col) else None
  }

  /** What follows `(c`: either `>=lo` or `<hi`. */
  function ParseComparison(t: string, col: string): (r: Option<(BoundRange, string)>)
    ensures r.Some? ==> |r.value.1| < |t|
  {
    if StartsWith(t, ">=") then
      match ParseNat(t[2..])
      case None => None
      case Some((lo, rest)) => ParseAfterLower(lo, rest, col)
    else if StartsWith(t, "<") then
      match ParseNat(t[1..])
      case None => None
      case Some((hi, rest)) => ParseClose(BoundRange(None, Some(hi)), rest)
    else None
  }

  /** What follows `(c>=lo`: either ` AND c<hi)` or `)`. */
  function ParseAfterLower(lo: nat, t: string, col: string): (r: Option<(BoundRange, string)>)
    ensures r.Some? ==> |r.value.1| < |t|
  {
    var mid := " AND " + col + "<";
    if StartsWith(t, mid) then
      match ParseNat(t[|mid|..])
      case None => None
      case Some((hi, rest)) => ParseClose(BoundRange(Some(lo), Some(hi)), rest)
    else ParseClose(BoundRange(Some(lo), None), t)
  }

  /** The closing `)` of a sub-clause. */
  function ParseClose(f: BoundRange, t: string): (r: Option<(BoundRange, string)>)
    ensures r.Some? ==> |r.value.1| < |t|
  {
    if StartsWith(t, ")") then Some((f, t[1..])) else None
  }

  /** Reads `clause (" OR " clause)* ")"`, which must use up all of `s`. */
  function ParseDisjuncts(s: string, col: string): Option<seq<BoundRange>>
    decreases |s|, 1
  {
    match ParseClause(s, col)
    case None => None
    case Some((f, rest)) => ParseMoreDisjuncts(f, rest, col)
  }

  /** What follows a clause `f`: the closing `)`, or `" OR "` and more. */
  function ParseMoreDisjuncts(f: BoundRange, rest: string, col: string): Option<seq<BoundRange>>
    decreases |rest|, 0
  {
    if rest == ")" then Some([f])
    else if StartsWith(rest, " OR ") then
      match ParseDisjuncts(rest[4..], col)
      case None => None
      case Some(fs) => Some([f] + fs)
    else None
  }

  /** Reads a whole predicate; `""` is the predicate with no ranges. */
  function ParseWhereClause(w: string, col: string): Option<seq<BoundRange>>
  {
    if w == "" then Some([])
    else if w[0] == '(' then ParseDisjuncts(w[1..], col)
    else None
  }

  lemma CloseRoundTrip(f: BoundRange, rest: string)
    ensures ParseClose(f, ")" + rest) == Some((f, rest))
  {
    StartsWithAppend(")", rest);
  }

  lemma AfterLowerRoundTrip(lo: nat, hi: Option<nat>, col: string, rest: string)
    requires hi.Some? ==> hi.value != 0
    ensures ParseAfterLower(lo, (if hi.Some? then " AND " + col + "<" + NatToString(hi.value) else "") + ")" + rest, col)
         == Some((BoundRange(Some(lo), hi), rest))
  {
    var mid := " AND " + col + "<";
    CloseRoundTrip(BoundRange(Some(lo), hi), rest);
    if hi.Some? {
      var b := NatToString(hi.value);
      assert mid + b + ")" + rest == mid + (b + (")" + rest));
      StartsWithAppend(mid, b + (")" + rest));
      ParseNatToString(hi.value, ")" + rest);
    } else {
      assert (")" + rest)[0] != mid[0];
    }
  }

  lemma ComparisonRoundTrip(r: BoundRange, col: string, rest: string)
    requires Contributes(r)
    ensures ParseComparison(SubClauseBody(r, col) + rest, col) == Some((Normalize(r), rest))
  {
    var f := Normalize(r);
    if Truthy(r.lower) {
      var a := NatToString(r.lower.value);
      var after := (if f.upper.Some? then " AND " + col + "<" + NatToString(f.upper.value) else "") + ")" + rest;
      assert SubClauseBody(r, col) + rest == ">=" + (a + after);
      StartsWithAppend(">=", a + after);
      ParseNatToString(r.lower.value, after);
      AfterLowerRoundTrip(r.lower.value, f.upper, col, rest);
    } else {
      var b := NatToString(r.upper.value);
      assert SubClauseBody(r, col) + rest == "<" + (b + (")" + rest));
      assert ("<" + (b + (")" + rest)))[0] != ">="[0];
      StartsWithAppend("<", b + (")" + rest));
      ParseNatToString(r.upper.value, ")" + rest);
      CloseRoundTrip(f, rest);
    }
  }

  /** The sub-clause of a contributing range reads back as that range with
      its falsy bounds dropped, whatever text follows it. */
  lemma ClauseRoundTrip(r: BoundRange, col: string, rest: string)
    requires Contributes(r)
    ensures |SubClause(r, col)| == 1
    ensures ParseClause(SubClause(r, col)[0] + rest, col) == Some((Normalize(r), rest))
  {
    var head := "(" + col;
    var t := SubClauseBody(r, col) + rest;
    assert SubClause(r, col)[0] + rest == head + t;
    StartsWithAppend(head, t);
    ComparisonRoundTrip(r, col, rest);
  }

  lemma JoinCons(sep: string, c: string, cs: seq<string>)
    requires |cs| > 0
    ensures Join(sep, [c] + cs) == c + sep + Join(sep, cs)
  {
    assert ([c] + cs)[1..] == cs;
  }

  /** One step of `ParseDisjuncts` over a clause followed by `" OR "`. */
  lemma DisjunctsStep(s: string, col: string, f: BoundRange, more: string, fs: seq<BoundRange>)
    requires ParseClause(s, col) == Some((f, " OR " + more))
    requires ParseDisjuncts(more, col) == Some(fs)
    ensures ParseDisjuncts(s, col) == Some([f] + fs)
  {
    StartsWithAppend(" OR ", more);
    assert " OR " + more != ")";
  }

  /** `ParseDisjuncts` over a last clause closed by `)`. */
  lemma DisjunctsLast(s: string, col: string, f: BoundRange)
    requires ParseClause(s, col) == Some((f, ")"))
    ensures ParseDisjuncts(s, col) == Some([f])
  {
  }

  lemma SubClausesCons(ranges: seq<BoundRange>, col: string)
    requires |ranges| > 0
    ensures !Contributes(ranges[0]) ==> SubClauses(ranges, col) == SubClauses(ranges[1..], col)
    ensures !Contributes(ranges[0]) ==> Filters(ranges) == Filters(ranges[1..])
    ensures Contributes(ranges[0]) ==> SubClauses(ranges, col) == SubClause(ranges[0], col) + SubClauses(ranges[1..], col)
    ensures Contributes(ranges[0]) ==> Filters(ranges) == [Normalize(ranges[0])] + Filters(ranges[1..])
  {
  }

  /** The case of `DisjunctsRoundTrip` where the first range gives the
      only sub-clause. */
  lemma DisjunctsOnlyHead(ranges: seq<BoundRange>, col: string)
    requires |ranges| > 0 && Contributes(ranges[0])
    requires SubClauses(ranges[1..], col) == []
    ensures ParseDisjuncts(Join(" OR ", SubClauses(ranges, col)) + ")", col) == Some(Filters(ranges))
  {
    SubClausesCons(ranges, col);
    ClauseRoundTrip(ranges[0], col, ")");
    var c := SubClause(ranges[0], col)[0];
    assert SubClauses(ranges, col) == [c];
    assert Join(" OR ", [c]) == c;
    DisjunctsLast(c + ")", col, Normalize(ranges[0]));
    assert Filters(ranges[1..]) == [];
    assert Filters(ranges) == [Normalize(ranges[0])];
  }

  lemma AppendAssoc(a: string, b: string, d: string, e: string)
    ensures a + b + d + e == a + (b + (d + e))
  {
  }

  /** Reading `c OR cs...)`: a clause that parses as `f` whatever follows,
      then the rest. */
  lemma DisjunctsJoinStep(c: string, cs: seq<string>, col: string, f: BoundRange, fs: seq<BoundRange>)
    requires |cs| > 0
    requires ParseClause(c + (" OR " + (Join(" OR ", cs) + ")")), col) == Some((f, " OR " + (Join(" OR ", cs) + ")")))
    requires ParseDisjuncts(Join(" OR ", cs) + ")", col) == Some(fs)
    ensures ParseDisjuncts(Join(" OR ", [c] + cs) + ")", col) == Some([f] + fs)
  {
    var j := Join(" OR ", cs);
    var more := j + ")";
    JoinCons(" OR ", c, cs);
    AppendAssoc(c, " OR ", j, ")");
    DisjunctsStep(c + (" OR " + more), col, f, more, fs);
  }

  /** The case of `DisjunctsRoundTrip` where the first range gives a
      sub-clause and more follow, given the round trip of the rest. */
  lemma DisjunctsHeadThenMore(ranges: seq<BoundRange>, col: string)
    requires |ranges| > 0 && Contributes(ranges[0])
    requires |SubClauses(ranges[1..], col)| > 0
    requires ParseDisjuncts(Join(" OR ", SubClauses(ranges[1..], col)) + ")", col) == Some(Filters(ranges[1..]))
    ensures ParseDisjuncts(Join(" OR ", SubClauses(ranges, col)) + ")", col) == Some(Filters(ranges))
  {
    SubClausesCons(ranges, col);
    var cs := SubClauses(ranges[1..], col);
    var more := Join(" OR ", cs) + ")";
    ClauseRoundTrip(ranges[0], col, " OR " + more);
    var c := SubClause(ranges[0], col)[0];
    assert SubClauses(ranges, col) == [c] + cs;
    DisjunctsJoinStep(c, cs, col, Normalize(ranges[0]), Filters(ranges[1..]));
  }

  /** The joined sub-clauses, closed by `)`, read back as the filters. */
  lemma {:induction false} DisjunctsRoundTrip(ranges: seq<BoundRange>, col: string)
    requires |SubClauses(ranges, col)| > 0
    ensures ParseDisjuncts(Join(" OR ", SubClauses(ranges, col)) + ")", col) == Some(Filters(ranges))
  {
    var tail := ranges[1..];
    SubClausesCons(ranges, col);
    if !Contributes(ranges[0]) {
      DisjunctsRoundTrip(tail, col);
    } else if |SubClauses(tail, col)| == 0 {
      DisjunctsOnlyHead(ranges, col);
    } else {
      DisjunctsRoundTrip(tail, col);
      DisjunctsHeadThenMore(ranges, col);
    }
  }

  /** Round trip of the builder: reading the WHERE clause back yields exactly
      the contributing ranges, in input order, with falsy bounds dropped; in
      particular `""` stands for "no range at all", never "every row". */
  lemma GeohashWhereClauseRoundTrip(ranges: seq<BoundRange>, col: string)
    ensures ParseWhereClause(GeohashWhereClause(ranges, col), col) == Some(Filters(ranges))
  {
    var cs := SubClauses(ranges, col);
    if |cs| > 0 {
      var j := Join(" OR ", cs);
      var w := GeohashWhereClause(ranges, col);
      assert w == "(" + (j + ")");
      StartsWithAppend("(", j + ")");
      assert w != "" && w[0] == '(';
      DisjunctsRoundTrip(ranges, col);
    }
  }
}
